=== FILE: README.md ===
# ValoreClub Tracker: trade-day ledger, monthly summary, month selector and phone mask

This project models the pure computations of a small trading-journal web
application in Dafny. In the app, a signed-in user keeps one row per calendar
day of a month, with an opening value and a closing value. The dashboard
derives each day's profit, the whole-month totals and a monthly summary:
operated days, profit and loss days, total, average, and best and worst day.
A month selector steps through months. The profile and registration forms
mask a Brazilian phone number as it is typed, and they refuse mismatched
passwords before contacting the backend.

Money is modelled as a mathematical `real`. All arithmetic is exact, so the
results are the exact-arithmetic versions of the JavaScript computations. A
text input for an opening or closing value is an `Entry`: `Empty` stands for
the empty string, and `Filled(amount)` for any other text. `amount` is the
number the page reads from that text, which is 0 when the text is not a
number.

Modules, one per file:

- `Calendar` (`calendar.dfy`): month lengths as `new Date(year, month, 0).getDate()` yields them, and the Date range outside which that value is NaN.
- `DecimalText` (`decimal_text.dfy`): `${n}` rendering of integers, the two-digit zero pad, and their parsers.
- `TradeLedger` (`trade_ledger.dfy`): the `TradeDay` record, month initialisation, the edit of one day, and whole-month totals.
- `MonthSummary` (`monthly_summary.dfy`): the monthly summary, both as a specification function and as the scanning method the page runs.
- `MonthSelector` (`month_selector.dfy`): previous/next month transitions and the callback to the dashboard.
- `PhoneMask` (`phone_mask.dfy`): the `(XX) XXXXX-XXXX` input mask.
- `FormGuard` (`form_guard.dfy`): the password-confirmation check.
- `CapitalEdit` (`capital_edit.dfy`): what a capital edit does to the screen, as written and as intended.
- `ProfilePage` and `RegisterPage` (`profile_page.dfy`, `register_page.dfy`): the two forms' handlers, up to their first backend request.

The model follows the code, including these behaviours a reader might not expect:

- **Clearing a value keeps the old profit.** One might expect a day without both values to carry zero profit. The edit handler only recomputes profit when both values are present. So clearing a value leaves the profit of the last complete edit in place, and the whole-month total still counts it. The monthly summary skips the day. `ClearingKeepsStaleProfit` and `StaleProfitSplitsTotals` exhibit this.
- **The phone hyphen starts at eight digits.** The hyphen goes in only when the bracketed text is longer than 10 characters. With seven digits the text is `(12) 34567`, exactly 10 characters, so it gets no hyphen. Eight to eleven digits give `(12) 34567-8` … `(12) 34567-8901`.
- **An empty month's summary is not written.** When no day is operated, the summary on screen is reset to the all-zero record but not written to the store. A summary stored earlier for that month stays as it was.
- **Year 0 is read as 1900.** The Date constructor reads years 0..99 as 1900..1999. For every year except 0 the month lengths are the Gregorian ones. For year 0, February has 28 days because 1900 is not a leap year.
- **Months outside the Date range get no days.** A Date more than 100,000,000 days from 1970-01-01 is invalid (section 21.4.1.1 of ECMA-262), and its `getDate()` is NaN. Then the loop test `i <= daysInMonth` fails at once, and the month is initialised with no entries. This applies to every month after August of year 275760 and before April of year -271821.

## Model

| member | source | states |
|---|---|---|
| Calendar.DaysInMonth | app/dashboard/page.tsx:114 | a month has 28 to 31 days; fewer than 30 exactly for February; 29 exactly for February of a leap year, as the Date constructor reads the year; 30 exactly for April, June, September and November |
| Calendar.DaysInMonthIsGregorian | app/dashboard/page.tsx:114 | for every year other than 0 the month length is the proleptic Gregorian one |
| Calendar.YearZeroReadAs1900 | app/dashboard/page.tsx:114 | year 0 has a 28-day February, although Gregorian year 0 is a leap year |
| Calendar.MonthsFillYear | app/dashboard/page.tsx:114 | the twelve month lengths add up to 365, or 366 in a leap year |
| Calendar.DateRangeEnds | app/dashboard/page.tsx:114 | the day numbers count from 1970-01-01; 13 September 275760 and 20 April -271821 lie exactly 100,000,000 days after and before it, the two ends of the Date range |
| Calendar.AfterDateRange | app/dashboard/page.tsx:114 | the last day of every month after August 275760 lies past the Date range |
| Calendar.BeforeDateRange | app/dashboard/page.tsx:114 | the last day of every month before April -271821 lies before the Date range |
| Calendar.WithinDateRange | app/dashboard/page.tsx:114 | the last day of every month from April -271821 to August 275760 lies within the Date range |
| Calendar.DateRangeByDayNumber | app/dashboard/page.tsx:114 | the explicit year and month bounds hold exactly when the month's last day is within 100,000,000 days of the epoch |
| Calendar.EntryCount | app/dashboard/page.tsx:114-117 | the loop makes no pass exactly when the month's last day is more than 100,000,000 days from 1970-01-01, outside the Date range (`getDate()` is NaN); otherwise it makes one pass per day of the month |
| DecimalText.NatToString | app/dashboard/page.tsx:118 | `${i}` is a non-empty digit string; one digit below 10, two digits from 10 to 99; it starts with 0 only for 0 itself |
| DecimalText.ParseNatToString | app/dashboard/page.tsx:118 | reading the rendered digits back gives the number |
| DecimalText.IntToString | app/dashboard/page.tsx:124 | `${year}` is non-empty and starts with a minus sign exactly for negative years; the digits after the sign are non-empty and start with 0 only for year 0, which renders as the single digit 0 |
| DecimalText.IntToStringRoundTrip | app/dashboard/page.tsx:124 | the rendered year is a well-formed numeral that reads back as the year |
| DecimalText.Pad2 | app/dashboard/page.tsx:118-119 | a number below 100 becomes exactly two digits, the tens then the units, reading back as the number |
| TradeLedger.FormatDate | app/dashboard/page.tsx:118-124 | the date is `DD/MM/YYYY`: slashes at positions 2 and 5; two digits reading back as the day; two digits reading back as the month; then the year numeral reading back as the year |
| TradeLedger.InitializeTradeDays | app/dashboard/page.tsx:113-131 | exactly `EntryCount(year, month)` entries, so the month's days within the Date range and none outside it; entry i has id = day = i+1 and the formatted date; its capital is the current capital; both values are empty and both profit fields are 0 |
| TradeLedger.PlaceholderMonthHasNoProfit | app/dashboard/page.tsx:121-134 | no entry of a freshly initialised month (or of any prefix of one) is operated, and its profit total is 0 |
| TradeLedger.FindDayIndex | app/dashboard/page.tsx:143 | -1 exactly when no entry has the id; otherwise the first position whose entry has the id |
| TradeLedger.Percent | app/dashboard/page.tsx:157 | the percentage rule of day profit, shared by the totals (line 211) and the summary (line 267): p × whole = 100 × part, and p = 0 when whole is 0 |
| TradeLedger.Reprice | app/dashboard/page.tsx:151-158 | when both values are present, profitAmount + initial = final, and profitPercent is profitAmount as a percentage of initial (0 when initial is 0); otherwise the day is unchanged; nothing but the profit fields ever changes |
| TradeLedger.UpdateTradeDay | app/dashboard/page.tsx:141-161 | the length is kept; every entry except the first one with the id is unchanged, and no match means no change; the edited entry keeps id, date, day and capital; it takes the new value in the named field only (any other field name changes nothing); its profit fields are consistent when both values are present, and keep their old values otherwise |
| TradeLedger.UpdatePreservesPricing | app/dashboard/page.tsx:141-161 | if every operated entry's profit agrees with its values before an edit, the same holds after it |
| TradeLedger.ClearingKeepsStaleProfit | app/dashboard/page.tsx:148-158 | clearing the closing value of a day that made 10 leaves it unoperated but still with profitAmount 10 |
| TradeLedger.SumProfitAppend | app/dashboard/page.tsx:204-208 | the profit total of two lists concatenated is the sum of their totals |
| TradeLedger.SumProfitPermutation | app/dashboard/page.tsx:204-208 | the profit total does not depend on the order of the entries |
| TradeLedger.SumOfZeros | app/dashboard/page.tsx:204-208 | entries that all have zero profit total 0 |
| TradeLedger.CalculateTotals | app/dashboard/page.tsx:203-213 | totalProfit is the sum of profitAmount over all entries, operated or not; profitPercent is totalProfit as a percentage of capital (0 when capital is 0); accumulatedCapital = capital + totalProfit |
| MonthSummary.Operated | app/dashboard/page.tsx:219 | the filtered list is no longer than the input, and holds exactly the input's entries that have both values |
| MonthSummary.OperatedAppend | app/dashboard/page.tsx:219 | filtering distributes over concatenation, so it keeps the input order |
| MonthSummary.SignsPartition | app/dashboard/page.tsx:237-238 | profit days, loss days and zero-profit days together number exactly the operated days |
| MonthSummary.BestIndex | app/dashboard/page.tsx:246-256 | the chosen entry's profit is at least every other entry's, and strictly greater than every earlier entry's |
| MonthSummary.WorstIndex | app/dashboard/page.tsx:246-256 | the chosen entry's profit is at most every other entry's, and strictly less than every earlier entry's |
| MonthSummary.Mean | app/dashboard/page.tsx:268 | the average times the count gives the total; 0 for no days |
| MonthSummary.SummaryOf | app/dashboard/page.tsx:237-271 | for a non-empty operated list: the counts; profitDays + lossDays <= totalOperations; total = sum of profits; percent of capital with the zero-capital rule; average × count = total; best and worst are the first maximal and first minimal days; worst <= best |
| MonthSummary.CalculateMonthlySummary | app/dashboard/page.tsx:215-271 | persisted exactly when some entry is operated; otherwise the all-zero record with both days {0, 0}; profitDays + lossDays <= totalOperations <= number of days; profit and loss counts over the operated days; total over the operated days; percent rule; average rule; first-best and first-worst days; worst <= best |
| MonthSummary.ScanOperated | app/dashboard/page.tsx:219 | the filter pass keeps exactly the operated days, in order, as the specified filter |
| MonthSummary.ScanCount | app/dashboard/page.tsx:237-238 | the `> 0` and `< 0` counting passes give the profit-day and loss-day counts of the specification |
| MonthSummary.ScanTotal | app/dashboard/page.tsx:240-243 | the left-to-right accumulation equals the profit total |
| MonthSummary.ScanExtremes | app/dashboard/page.tsx:246-256 | starting from the infinite sentinels, an empty list leaves both untouched; otherwise the scan ends holding the first maximal and the first minimal day, so no sentinel survives |
| MonthSummary.SummarizeMonth | app/dashboard/page.tsx:215-273 | the page's filter pass, its two counting passes, its total pass and its best/worst pass, sentinel fallback included, give exactly the specified summary and persistence decision |
| MonthSummary.PlaceholderMonthSummary | app/dashboard/page.tsx:113-135 | the summary of a freshly initialised month is the all-zero record and is not persisted |
| MonthSummary.TotalsMatchSummary | app/dashboard/page.tsx:203-243 | when every unoperated entry has zero profit, the whole-month total equals the summary total |
| MonthSummary.StaleProfitSplitsTotals | app/dashboard/page.tsx:148-243 | after a value is cleared, the whole-month total still counts the day's stale 10 while the summary total is 0 |
| MonthSummary.TwoDayExample | app/dashboard/page.tsx:215-271 | days gaining 10 and losing 10 on capital 100 summarise to 2 operations, 1 profit day, 1 loss day, total 0, percent 0, average 0, best {1, 10}, worst {2, -10} |
| TradeLedger.PercentOfNothing | app/dashboard/page.tsx:211 | a zero profit is 0 percent of any capital |
| CapitalEdit.Reinitialize | app/dashboard/page.tsx:113-135 | re-initialising gives the placeholder month on the capital it is given, totals of 0 profit and 0 percent with that capital as accumulated capital, and the unpersisted all-zero summary |
| CapitalEdit.UpdateCapitalAsWritten | app/dashboard/page.tsx:308-327 | the capital state becomes the new value, but the rows and the accumulated capital are built on the capital of the render that created the handler |
| CapitalEdit.StaleCapitalAfterEdit | app/dashboard/page.tsx:308-327 | whenever the capital actually changes, the as-written result shows an accumulated capital and rows that differ from the displayed capital |
| CapitalEdit.StaleCapitalExample | app/dashboard/page.tsx:308-327 | with 100 shown and 200 entered for January 2024, the 31 new rows and the accumulated capital show 100 |
| CapitalEdit.UpdateCapital | app/dashboard/page.tsx:308-327 | the corrected edit: the capital state, every new row and the accumulated capital all hold the new capital; totals and summary are reset |
| MonthSelector.PreviousMonth | components/month-selector.tsx:17-29 | a valid month stays valid and moves exactly one month back; the year drops by one exactly on wrapping from January, and otherwise stays |
| MonthSelector.NextMonth | components/month-selector.tsx:31-43 | a valid month stays valid and moves exactly one month forward; the year rises by one exactly on wrapping from December, and otherwise stays |
| MonthSelector.NextUndoesPrevious | components/month-selector.tsx:17-43 | next after previous returns any valid state |
| MonthSelector.PreviousUndoesNext | components/month-selector.tsx:17-43 | previous after next returns any valid state |
| MonthSelector.Click | components/month-selector.tsx:26-42 | the state handed to the callback is exactly the state the selector stores, still valid, one month away in the clicked direction |
| MonthSelector.ClicksNetEffect | components/month-selector.tsx:13-43 | after any run of clicks, the selector and the dashboard hold the same valid month, moved by (#next - #previous) months |
| PhoneMask.Digits | app/profile/page.tsx:187 | the result holds digits only and is no longer than the input |
| PhoneMask.DigitsOfChar | app/profile/page.tsx:187 | one character is kept exactly when it is a digit; with `DigitsAppend` this fixes the result for every string, in order |
| PhoneMask.DigitsAppend | app/profile/page.tsx:187 | digit extraction distributes over concatenation, so the input order is kept |
| PhoneMask.DigitCounts | app/profile/page.tsx:187 | every digit character is kept as often as it occurs in the input, and every other character is dropped |
| PhoneMask.FormatPhone | app/profile/page.tsx:186-199 | the output is the layout of the input's digits: raw for at most 2 or more than 11 digits; otherwise `(XX) ` and the rest, with a hyphen after the seventh digit from 8 digits on; its digits are the input's; its length and hyphen position follow from the digit count |
| PhoneMask.MaskKeepsDigits | app/profile/page.tsx:187-197 | removing the non-digits from a masked number gives back its digits; the hyphen is at index 10 and present exactly for 8 to 11 digits |
| PhoneMask.FormatIdempotent | app/profile/page.tsx:187-197 | masking a masked value changes nothing |
| PhoneMask.FormatDependsOnlyOnDigits | app/profile/page.tsx:187 | two inputs with the same digits mask alike |
| ProfilePage.HandlePhoneChange | app/profile/page.tsx:186-199 | the stored phone has exactly the typed digits, laid out by the mask |
| FormGuard.ConfirmPasswords | app/profile/page.tsx:105-108 | accepted exactly when the two passwords are equal; a rejection carries "As senhas não coincidem" |
| ProfilePage.HandlePasswordUpdate | app/profile/page.tsx:100-117 | the backend is called exactly when the passwords match; on a mismatch the last effect sets the mismatch error, and the handler stops before any request; on a match it re-verifies the current password and sets no error |
| RegisterPage.HandlePhoneChange | app/register/page.tsx:85-99 | the registration form's mask is the profile form's; it keeps the typed digits, and passes more than 11 digits through unformatted |
| RegisterPage.HandleSubmit | app/register/page.tsx:28-51 | the registration request is issued exactly when the passwords match, carrying the form unchanged; on a mismatch the last effect sets the mismatch error and nothing is sent |

## Findings

| source | as written | input that shows it | evidently intended | confidence | as-written member | corrected member |
|---|---|---|---|---|---|---|
| app/dashboard/page.tsx:308-327 | `updateCapital` calls `setCapital(newCapital)` and then `initializeTradeDays(year, month)`, which reads `capital` from the handler's closure, the value before the edit | capital 100 on screen, 200 entered, January 2024: the capital card shows 200, but all 31 new rows and the accumulated capital show 100 | re-initialise the month with the new capital, as the comment on line 322 says | medium, not executed | CapitalEdit.UpdateCapitalAsWritten, CapitalEdit.StaleCapitalAfterEdit, CapitalEdit.StaleCapitalExample | CapitalEdit.UpdateCapital |

## Left out

- Session checks (`if (!user) return` in the edit and summary handlers) are left out. The model covers the signed-in case only.
- React state updates and re-rendering are left out. The handlers are modelled as functions from the old state to the new state.
- The writes to the backing store are left out: saving a day, persisting the summary, and updating settings. They are asynchronous, unordered calls to a foreign client. The summary's `persist` flag records only whether the page attempts the write.
- Loading a month from the store, and mapping stored rows to screen rows, are left out. They are I/O.
- The capital prompt in `handleCapitalEdit` (the dialog, the parsing and the `value > 0` check) and the settings write in `updateCapital` are left out. They are a browser dialog and a store write. What `updateCapital` does to the screen is modelled in `CapitalEdit`: it stores the new capital and re-initialises the month through `initializeTradeDays`, the same operation as `InitializeTradeDays`.
- CapitalEdit.UpdateCapitalAsWritten: covers only a settings write that succeeds. When the write throws, the handler logs the error and skips the re-initialisation, so only the capital state changes. That path is an I/O failure and is not modelled.
- Number parsing and rendering are abstracted. `Number.parseFloat` with its `|| 0` fallback becomes the `Entry` amount. `toFixed` and the localised month names are not modelled.
- IEEE-754 rounding is not modelled. Money is exact `real`. Accordingly, the page's post-scan checks for an untouched ±infinity sentinel are modelled as a fallback that can never fire on a non-empty list.
- `${year}` switches to exponent notation for magnitudes of 10^21 and above. That rendering is not modelled.
- Month initialisation assumes a month in 1..12, the range the month selector keeps. The Date constructor's roll-over for other month numbers is not modelled.
- The rest of the password-update and registration flows is left out: the sign-in, user update, registration response and redirects after the first request. It runs in the authentication backend.
- The HTTP route handlers, the authentication context, the login page and the presentation components are left out. They are network plumbing or pure layout.

=== FILE: calendar.dfy ===
/**
  Month lengths as the dashboard obtains them: `new Date(year, month, 0).getDate()`,
  the last day of the 1-based `month`.  The JavaScript Date constructor reads a
  year argument in 0..99 as 1900 + year before applying the proleptic Gregorian
  calendar, so the model carries that mapping; it matters only for year 0.
  Far from the epoch the Date is invalid and `getDate()` is NaN, so the model
  also carries the Date range.
 */
module Calendar {

  /** Proleptic Gregorian leap-year rule (years may be zero or negative). */
  predicate IsLeapYear(y: int) {
    y % 4 == 0 && (y % 100 != 0 || y % 400 == 0)
  }

  /** Gregorian length of a month, the reference the dashboard relies on. */
  function MonthLength(year: int, month: int): int
    requires 1 <= month <= 12
  {
    if month == 2 then (if IsLeapYear(year) then 29 else 28)
    else if month == 4 || month == 6 || month == 9 || month == 11 then 30
    else 31
  }

  /** The year the Date constructor actually uses for a year argument. */
  function DateConstructorYear(year: int): int {
    if 0 <= year <= 99 then 1900 + year else year
  }

  /** `new Date(year, month, 0).getDate()` for a month in 1..12, when that Date is valid. */
  function DaysInMonth(year: int, month: int): (n: int)
    requires 1 <= month <= 12
    ensures 28 <= n <= 31
    ensures n < 30 <==> month == 2
    ensures n == 29 <==> month == 2 && IsLeapYear(DateConstructorYear(year))
    ensures n == 30 <==> month in {4, 6, 9, 11}
  {
    MonthLength(DateConstructorYear(year), month)
  }

  /**
    Days from 1970-01-01 to the given proleptic Gregorian date (negative before
    it): the civil-to-day-number conversion with March as the first month of
    the counting year, so that the leap day falls at the end.
   */
  function DayNumber(year: int, month: int, day: int): int
    requires 1 <= month <= 12
  {
    var y := if month <= 2 then year - 1 else year;
    var m := if month > 2 then month - 3 else month + 9;
    var dayOfYear := (153 * m + 2) / 5 + day - 1;
    365 * y + y / 4 - y / 100 + y / 400 + dayOfYear - 719468
  }

  /**
    A Date's time value must lie within 8.64e15 ms, that is 100,000,000 days, of
    the epoch (section 21.4.1.1 of ECMA-262); otherwise the Date is invalid.
   */
  const MaxDateDays: int := 100_000_000

  /**
    `new Date(year, month, 0)` at local midnight is within the Date range: its
    UTC day number is within `MaxDateDays` of the epoch.  The local-time offset
    moves the time value by less than a day, and the range ends on the 13th and
    the 20th of a month, never near a month's last day, so the offset cannot
    change the answer.
   */
  predicate LastDayWithinMaxDays(year: int, month: int)
    requires 1 <= month <= 12
  {
    var y := DateConstructorYear(year);
    -MaxDateDays <= DayNumber(y, month, MonthLength(y, month)) <= MaxDateDays
  }

  /**
    Whether `getDate()` on the last day of the month is a number and not NaN:
    every month from April of year -271821 up to August of year 275760.
   */
  predicate LastDayInDateRange(year: int, month: int) {
    || -271821 < year < 275760
    || (year == 275760 && month <= 8)
    || (year == -271821 && month >= 4)
  }

  /** The last day of every month after August of year 275760 lies past the range. */
  lemma AfterDateRange(year: int, month: int)
    requires 1 <= month <= 12
    requires year > 275760 || (year == 275760 && month >= 9)
    ensures DayNumber(year, month, MonthLength(year, month)) > MaxDateDays
  {
    var y := if month <= 2 then year - 1 else year;
    assert y >= 275759 && (y == 275759 ==> month <= 2) && (y == 275760 ==> month >= 9 || month <= 2);
  }

  /** The last day of every month before April of year -271821 lies before the range. */
  lemma BeforeDateRange(year: int, month: int)
    requires 1 <= month <= 12
    requires year < -271821 || (year == -271821 && month <= 3)
    ensures DayNumber(year, month, MonthLength(year, month)) < -MaxDateDays
  {
    var y := if month <= 2 then year - 1 else year;
    assert y <= -271821 && (y == -271821 ==> month == 3 || year == -271820);
  }

  /** The last day of every month from April of year -271821 to August of year 275760 lies within the range. */
  lemma WithinDateRange(year: int, month: int)
    requires 1 <= month <= 12
    requires LastDayInDateRange(year, month)
    ensures -MaxDateDays <= DayNumber(year, month, MonthLength(year, month)) <= MaxDateDays
  {
    var y := if month <= 2 then year - 1 else year;
    assert -271822 <= y <= 275760;
  }

  /** The explicit bounds are exactly the months whose last day is within the time range. */
  lemma DateRangeByDayNumber(year: int, month: int)
    requires 1 <= month <= 12
    ensures LastDayInDateRange(year, month) <==> LastDayWithinMaxDays(year, month)
  {
    var y := DateConstructorYear(year);
    assert LastDayInDateRange(y, month) == LastDayInDateRange(year, month);
    if LastDayInDateRange(y, month) {
      WithinDateRange(y, month);
    } else if y >= 275760 {
      AfterDateRange(y, month);
    } else {
      BeforeDateRange(y, month);
    }
  }

  /**
    The number of passes of the dashboard's `for (i = 1; i <= daysInMonth; i++)`
    loop: the month length for a valid Date, and none when `getDate()` is NaN,
    because `1 <= NaN` is false.
   */
  function EntryCount(year: int, month: int): (n: nat)
    requires 1 <= month <= 12
    ensures n == 0 <==> !LastDayWithinMaxDays(year, month)
    ensures n != 0 ==> n == DaysInMonth(year, month)
  {
    DateRangeByDayNumber(year, month);
    if LastDayInDateRange(year, month) then DaysInMonth(year, month) else 0
  }

  /** The epoch and the two ends of the Date range, as day numbers. */
  lemma DateRangeEnds()
    ensures DayNumber(1970, 1, 1) == 0
    ensures DayNumber(275760, 9, 13) == MaxDateDays
    ensures DayNumber(-271821, 4, 20) == -MaxDateDays
  {
  }

  lemma TwoDigitYearLeap(y: int)
    requires 1 <= y <= 99
    ensures IsLeapYear(1900 + y) == IsLeapYear(y)
  {
  }

  /** For every year except 0 the month length is the plain Gregorian one. */
  lemma DaysInMonthIsGregorian(year: int, month: int)
    requires 1 <= month <= 12
    requires year != 0
    ensures DaysInMonth(year, month) == MonthLength(year, month)
  {
    if 1 <= year <= 99 {
      TwoDigitYearLeap(year);
    }
  }

  /** Year 0 is read as 1900, which is not a leap year (Gregorian year 0 is). */
  lemma YearZeroReadAs1900()
    ensures DaysInMonth(0, 2) == 28
    ensures MonthLength(0, 2) == 29
  {
  }

  /** The twelve month lengths add up to the length of the year. */
  lemma MonthsFillYear(year: int)
    ensures var y := DateConstructorYear(year);
      DaysInMonth(year, 1) + DaysInMonth(year, 2) + DaysInMonth(year, 3) + DaysInMonth(year, 4)
      + DaysInMonth(year, 5) + DaysInMonth(year, 6) + DaysInMonth(year, 7) + DaysInMonth(year, 8)
      + DaysInMonth(year, 9) + DaysInMonth(year, 10) + DaysInMonth(year, 11) + DaysInMonth(year, 12)
      == if IsLeapYear(y) then 366 else 365
  {
  }
}

=== FILE: capital_edit.dfy ===
/**
  Changing the starting capital on the dashboard (updateCapital in
  app/dashboard/page.tsx): the new capital is stored, the user's settings are
  written, and the month is initialised again, which resets the rows, the
  whole-month totals and the monthly summary.

  As written, the re-initialisation runs inside the closure of the render that
  created the handler, so it reads the capital from before the edit: the rows
  and the accumulated capital are built on the old value while the capital
  state holds the new one.  `UpdateCapitalAsWritten` models that behaviour and
  `UpdateCapital` the intended one, which builds the new month on the new capital.
 */
module CapitalEdit {
  import opened Calendar
  import opened TradeLedger
  import opened MonthSummary

  /** What the dashboard shows after a capital edit. */
  datatype Dashboard = Dashboard(
    capital: real,
    days: seq<TradeDay>,
    totals: Totals,
    summary: SummaryUpdate)

  /** Every row and the totals are built on the capital the dashboard displays. */
  predicate OnDisplayedCapital(d: Dashboard) {
    && (forall j | 0 <= j < |d.days| :: d.days[j].capital == d.capital)
    && d.totals.accumulatedCapital == d.capital + d.totals.totalProfit
  }

  /** The state after `initializeTradeDays(year, month)` on the given capital. */
  method Reinitialize(shown: real, rowCapital: real, year: int, month: int) returns (d: Dashboard)
    requires 1 <= month <= 12
    ensures d.capital == shown
    ensures IsPlaceholderMonth(d.days, year, month, rowCapital)
    ensures d.totals == Totals(0.0, 0.0, rowCapital)
    ensures d.summary == SummaryUpdate(EmptySummary, false)
  {
    var days := InitializeTradeDays(year, month, rowCapital);
    PlaceholderMonthHasNoProfit(days, year, month, rowCapital);
    var totals := CalculateTotals(days, rowCapital);
    PercentOfNothing(totals.profitPercent, rowCapital);
    PlaceholderMonthSummary(days, year, month, rowCapital);
    var summary := SummarizeMonth(days, rowCapital);
    d := Dashboard(shown, days, totals, summary);
  }

  /**
    updateCapital as written: `setCapital(newCapital)` takes effect on the next
    render, but `initializeTradeDays` reads `capital` from the current closure,
    which still holds `renderedCapital`.
   */
  method UpdateCapitalAsWritten(renderedCapital: real, newCapital: real, year: int, month: int)
    returns (d: Dashboard)
    requires 1 <= month <= 12
    ensures d.capital == newCapital
    ensures IsPlaceholderMonth(d.days, year, month, renderedCapital)
    ensures d.totals == Totals(0.0, 0.0, renderedCapital)
    ensures d.summary == SummaryUpdate(EmptySummary, false)
  {
    d := Reinitialize(newCapital, renderedCapital, year, month);
  }

  /**
    Any dashboard the as-written handler can leave disagrees with its own
    capital as soon as the capital actually changed: the accumulated capital
    is the old one, and so is the capital of every row of a month that has rows.
   */
  lemma StaleCapitalAfterEdit(d: Dashboard, renderedCapital: real, newCapital: real, year: int, month: int)
    requires 1 <= month <= 12
    requires d.capital == newCapital
    requires IsPlaceholderMonth(d.days, year, month, renderedCapital)
    requires d.totals == Totals(0.0, 0.0, renderedCapital)
    requires renderedCapital != newCapital
    ensures !OnDisplayedCapital(d)
    ensures d.totals.accumulatedCapital != d.capital
    ensures forall j | 0 <= j < |d.days| :: d.days[j].capital != d.capital
  {
  }

  /** With 100 shown and 200 entered for January 2024, all 31 rows keep 100. */
  lemma StaleCapitalExample(d: Dashboard)
    requires d.capital == 200.0
    requires IsPlaceholderMonth(d.days, 2024, 1, 100.0)
    requires d.totals == Totals(0.0, 0.0, 100.0)
    ensures |d.days| == 31
    ensures d.days[0].capital == 100.0 && d.totals.accumulatedCapital == 100.0
  {
    DateRangeByDayNumber(2024, 1);
  }

  /** updateCapital as the comment on the re-initialisation intends: the new month is built on the new capital. */
  method UpdateCapital(newCapital: real, year: int, month: int) returns (d: Dashboard)
    requires 1 <= month <= 12
    ensures d.capital == newCapital
    ensures IsPlaceholderMonth(d.days, year, month, newCapital)
    ensures OnDisplayedCapital(d)
    ensures d.totals.accumulatedCapital == newCapital && d.totals.totalProfit == 0.0
    ensures d.summary == SummaryUpdate(EmptySummary, false)
  {
    d := Reinitialize(newCapital, newCapital, year, month);
  }
}

=== FILE: decimal_text.dfy ===
/**
  Decimal rendering of integers, as JavaScript template literals produce it
  (`${n}` for an integer value), and the zero-padded two-digit form the
  dashboard uses for the day and month of a date string.  Each renderer is
  paired with a parser and a round-trip lemma.
 */
module DecimalText {

  predicate IsDigit(c: char) {
    '0' <= c <= '9'
  }

  predicate AllDigits(s: string) {
    forall i | 0 <= i < |s| :: IsDigit(s[i])
  }

  function DigitValue(c: char): (d: nat)
    requires IsDigit(c)
    ensures d < 10
  {
    (c as int) - ('0' as int)
  }

  function DigitChar(d: nat): (c: char)
    requires d < 10
    ensures IsDigit(c) && DigitValue(c) == d
  {
    (('0' as int) + d) as char
  }

  /** Most significant digit first, no leading zeros (except for 0 itself). */
  function NatToString(n: nat): (s: string)
    ensures |s| >= 1 && AllDigits(s)
    ensures n < 10 ==> |s| == 1
    ensures 10 <= n < 100 ==> |s| == 2
    ensures s[0] == '0' <==> n == 0
    decreases n
  {
    if n < 10 then [DigitChar(n)] else NatToString(n / 10) + [DigitChar(n % 10)]
  }

  /** Reads a digit string, most significant digit first. */
  function ParseDigits(s: string): nat
    requires AllDigits(s)
  {
    if |s| == 0 then 0 else ParseDigits(s[..|s| - 1]) * 10 + DigitValue(s[|s| - 1])
  }

  lemma {:induction false} ParseNatToString(n: nat)
    ensures ParseDigits(NatToString(n)) == n
    decreases n
  {
    var s := NatToString(n);
    if n < 10 {
      assert s[..|s| - 1] == [];
    } else {
      assert s[..|s| - 1] == NatToString(n / 10);
      ParseNatToString(n / 10);
    }
  }

  /** `${i}` for an integer: a minus sign, then the digits of the magnitude. */
  function IntToString(i: int): (s: string)
    ensures |s| >= 1
    ensures (i < 0) <==> s[0] == '-'
    ensures var magnitude := if i < 0 then s[1..] else s;
      |magnitude| >= 1 && AllDigits(magnitude) && (magnitude[0] == '0' <==> i == 0) && (magnitude[0] == '0' <==> magnitude == "0")
  {
    if i < 0 then "-" + NatToString(-i) else NatToString(i)
  }

  predicate IsIntNumeral(s: string) {
    if |s| > 0 && s[0] == '-' then |s| > 1 && AllDigits(s[1..]) else AllDigits(s)
  }

  function ParseInt(s: string): (i: int)
    requires IsIntNumeral(s)
  {
    if |s| > 0 && s[0] == '-' then 0 - ParseDigits(s[1..]) else ParseDigits(s)
  }

  lemma IntToStringRoundTrip(i: int)
    ensures IsIntNumeral(IntToString(i))
    ensures ParseInt(IntToString(i)) == i
  {
    var s := IntToString(i);
    if i < 0 {
      var m := NatToString(-i);
      assert s == "-" + m;
      assert s[1..] == m;
      ParseNatToString(-i);
    } else {
      assert s == NatToString(i);
      ParseNatToString(i);
    }
  }

  /** `n < 10 ? `0${n}` : `${n}``: two digits that read back as `n`. */
  function Pad2(n: nat): (s: string)
    requires n < 100
    ensures |s| == 2 && AllDigits(s)
    ensures ParseDigits(s) == n
    ensures s[0] == DigitChar(n / 10) && s[1] == DigitChar(n % 10)
  {
    ParseNatToString(n);
    if n < 10 then
      var s := ['0'] + NatToString(n);
      assert s[..1] == ['0'] && ['0'][..0] == [];
      s
    else
      NatToString(n)
  }
}

=== FILE: form_guard.dfy ===
/**
  The password-confirmation check that the profile and registration forms run
  before any request leaves the page.
 */
module FormGuard {

  /** The error both forms show when the two passwords differ. */
  const PasswordMismatch: string := "As senhas não coincidem"

  datatype Check = Accepted | Rejected(error: string)

  /** `password !== confirmation` rejects with the mismatch message; equal strings pass. */
  function ConfirmPasswords(password: string, confirmation: string): (c: Check)
    ensures c.Accepted? <==> password == confirmation
    ensures c.Rejected? ==> c.error == PasswordMismatch
  {
    if password != confirmation then Rejected(PasswordMismatch) else Accepted
  }
}

=== FILE: month_selector.dfy ===
/**
  The month selector of components/month-selector.tsx: a (year, month) state
  moved one month back or forward by two buttons, reporting every new state to
  the dashboard through its onMonthChange callback.
 */
module MonthSelector {

  datatype YearMonth = YearMonth(year: int, month: int)

  predicate IsValid(s: YearMonth) {
    1 <= s.month <= 12
  }

  /** Months elapsed since January of year 0. */
  function MonthOrdinal(s: YearMonth): int {
    s.year * 12 + (s.month - 1)
  }

  /** handlePreviousMonth: month - 1, wrapping below 1 to December of the year before. */
  function PreviousMonth(s: YearMonth): (r: YearMonth)
    ensures IsValid(s) ==> IsValid(r) && MonthOrdinal(r) == MonthOrdinal(s) - 1
    ensures r.year == s.year || r.year == s.year - 1
    ensures r.year != s.year <==> s.month < 2
  {
    if s.month - 1 < 1 then YearMonth(s.year - 1, 12) else YearMonth(s.year, s.month - 1)
  }

  /** handleNextMonth: month + 1, wrapping above 12 to January of the year after. */
  function NextMonth(s: YearMonth): (r: YearMonth)
    ensures IsValid(s) ==> IsValid(r) && MonthOrdinal(r) == MonthOrdinal(s) + 1
    ensures r.year == s.year || r.year == s.year + 1
    ensures r.year != s.year <==> s.month > 11
  {
    if s.month + 1 > 12 then YearMonth(s.year + 1, 1) else YearMonth(s.year, s.month + 1)
  }

  lemma NextUndoesPrevious(s: YearMonth)
    requires IsValid(s)
    ensures NextMonth(PreviousMonth(s)) == s
  {
  }

  lemma PreviousUndoesNext(s: YearMonth)
    requires IsValid(s)
    ensures PreviousMonth(NextMonth(s)) == s
  {
  }

  datatype Button = Previous | Next

  /**
    The selector's own state and the state the dashboard last received through
    onMonthChange (the dashboard's handleMonthChange stores it unchanged).
   */
  datatype Screen = Screen(selector: YearMonth, dashboard: YearMonth)

  /** One click: the selector stores the new state and hands the same state to the callback. */
  function Click(sc: Screen, b: Button): (r: Screen)
    ensures r.selector == r.dashboard
    ensures IsValid(sc.selector) ==> IsValid(r.selector)
    ensures IsValid(sc.selector) ==>
      MonthOrdinal(r.selector) == MonthOrdinal(sc.selector) + (if b == Next then 1 else -1)
  {
    match b
    case Previous => var s := PreviousMonth(sc.selector); Screen(s, s)
    case Next => var s := NextMonth(sc.selector); Screen(s, s)
  }

  function ClickAll(sc: Screen, clicks: seq<Button>): Screen
    decreases |clicks|
  {
    if |clicks| == 0 then sc else ClickAll(Click(sc, clicks[0]), clicks[1..])
  }

  function CountNext(clicks: seq<Button>): nat {
    if |clicks| == 0 then 0 else (if clicks[0] == Next then 1 else 0) + CountNext(clicks[1..])
  }

  /**
    After any run of clicks from a valid, synchronised screen the two
    copies agree, stay valid, and have moved by (#next - #previous) months.
   */
  lemma {:induction false} ClicksNetEffect(sc: Screen, clicks: seq<Button>)
    requires IsValid(sc.selector)
    requires sc.selector == sc.dashboard
    ensures var r := ClickAll(sc, clicks);
      && r.selector == r.dashboard
      && IsValid(r.selector)
      && MonthOrdinal(r.selector) == MonthOrdinal(sc.selector) + CountNext(clicks) - (|clicks| - CountNext(clicks))
    decreases |clicks|
  {
    if |clicks| > 0 {
      ClicksNetEffect(Click(sc, clicks[0]), clicks[1..]);
    }
  }
}

=== FILE: monthly_summary.dfy ===
/**
  The monthly summary of app/dashboard/page.tsx (calculateMonthlySummary):
  counts, total, average and best/worst day over the operated days of a month,
  and whether the page goes on to persist it.
 */
module MonthSummary {
  import opened TradeLedger

  datatype DayProfit = DayProfit(day: int, profit: real)

  datatype Summary = Summary(
    totalOperations: nat,
    profitDays: nat,
    lossDays: nat,
    totalProfit: real,
    profitPercent: real,
    averageDailyProfit: real,
    bestDay: DayProfit,
    worstDay: DayProfit)

  /** The all-zero record shown when no day is operated. */
  const EmptySummary := Summary(0, 0, 0, 0.0, 0.0, 0.0, DayProfit(0, 0.0), DayProfit(0, 0.0))

  /** The summary the page shows, and whether it then upserts it to the store. */
  datatype SummaryUpdate = SummaryUpdate(summary: Summary, persist: bool)

  function ProfitOf(d: TradeDay): DayProfit {
    DayProfit(d.day, d.profitAmount)
  }

  // ---------------------------------------------------------------------------
  // Filtering and counting
  // ---------------------------------------------------------------------------

  /** `days.filter(day => day.initial && day.final)`. */
  function Operated(days: seq<TradeDay>): (ops: seq<TradeDay>)
    ensures |ops| <= |days|
    ensures forall d :: d in ops <==> d in days && IsOperated(d)
  {
    if |days| == 0 then []
    else
      var last := days[|days| - 1];
      assert days == days[..|days| - 1] + [last];
      Operated(days[..|days| - 1]) + (if IsOperated(last) then [last] else [])
  }

  /** Filtering distributes over concatenation, so it keeps the list order. */
  lemma {:induction false} OperatedAppend(a: seq<TradeDay>, b: seq<TradeDay>)
    ensures Operated(a + b) == Operated(a) + Operated(b)
    decreases |b|
  {
    if |b| == 0 {
      assert a + b == a;
    } else {
      var n := |b| - 1;
      assert (a + b)[..|a + b| - 1] == a + b[..n];
      OperatedAppend(a, b[..n]);
    }
  }

  /** -1, 0 or 1 according to the sign of a profit. */
  function Sign(x: real): int {
    if x > 0.0 then 1 else if x < 0.0 then -1 else 0
  }

  /** Number of entries whose profit has the given sign. */
  function CountSign(days: seq<TradeDay>, sign: int): nat {
    if |days| == 0 then 0
    else CountSign(days[..|days| - 1], sign) + (if Sign(days[|days| - 1].profitAmount) == sign then 1 else 0)
  }

  /** Profit days, loss days and break-even days partition the operated days. */
  lemma {:induction false} SignsPartition(days: seq<TradeDay>)
    ensures CountSign(days, 1) + CountSign(days, -1) + CountSign(days, 0) == |days|
    decreases |days|
  {
    if |days| > 0 {
      SignsPartition(days[..|days| - 1]);
    }
  }

  // ---------------------------------------------------------------------------
  // Best and worst day
  // ---------------------------------------------------------------------------

  /** Position of the first entry with the largest profit. */
  function BestIndex(days: seq<TradeDay>): (k: nat)
    requires |days| > 0
    ensures k < |days|
    ensures forall j | 0 <= j < |days| :: days[j].profitAmount <= days[k].profitAmount
    ensures forall j | 0 <= j < k :: days[j].profitAmount < days[k].profitAmount
  {
    if |days| == 1 then 0
    else
      var k := BestIndex(days[..|days| - 1]);
      if days[|days| - 1].profitAmount > days[k].profitAmount then |days| - 1 else k
  }

  /** Position of the first entry with the smallest profit. */
  function WorstIndex(days: seq<TradeDay>): (k: nat)
    requires |days| > 0
    ensures k < |days|
    ensures forall j | 0 <= j < |days| :: days[k].profitAmount <= days[j].profitAmount
    ensures forall j | 0 <= j < k :: days[k].profitAmount < days[j].profitAmount
  {
    if |days| == 1 then 0
    else
      var k := WorstIndex(days[..|days| - 1]);
      if days[|days| - 1].profitAmount < days[k].profitAmount then |days| - 1 else k
  }

  /** `dp` is the day and profit of the first entry achieving the maximum. */
  predicate IsFirstBest(days: seq<TradeDay>, dp: DayProfit) {
    exists k | 0 <= k < |days| ::
      && dp == ProfitOf(days[k])
      && (forall j | 0 <= j < |days| :: days[j].profitAmount <= days[k].profitAmount)
      && (forall j | 0 <= j < k :: days[j].profitAmount < days[k].profitAmount)
  }

  /** `dp` is the day and profit of the first entry achieving the minimum. */
  predicate IsFirstWorst(days: seq<TradeDay>, dp: DayProfit) {
    exists k | 0 <= k < |days| ::
      && dp == ProfitOf(days[k])
      && (forall j | 0 <= j < |days| :: days[k].profitAmount <= days[j].profitAmount)
      && (forall j | 0 <= j < k :: days[k].profitAmount < days[j].profitAmount)
  }

  // ---------------------------------------------------------------------------
  // The summary
  // ---------------------------------------------------------------------------

  /** `avg` is the mean of `count` values adding up to `total` (0 for no values). */
  predicate MeanOf(avg: real, total: real, count: nat) {
    if count == 0 then avg == 0.0 else avg * (count as real) == total
  }

  /** `count > 0 ? total / count : 0`. */
  function Mean(total: real, count: nat): (avg: real)
    ensures MeanOf(avg, total, count)
  {
    if count > 0 then total / (count as real) else 0.0
  }

  /** The summary of a non-empty list of operated days. */
  function SummaryOf(ops: seq<TradeDay>, capital: real): (s: Summary)
    requires |ops| > 0
    ensures s.totalOperations == |ops|
    ensures s.profitDays + s.lossDays <= s.totalOperations
    ensures s.profitDays == CountSign(ops, 1) && s.lossDays == CountSign(ops, -1)
    ensures s.totalProfit == SumProfit(ops)
    ensures PercentOf(s.profitPercent, s.totalProfit, capital)
    ensures MeanOf(s.averageDailyProfit, s.totalProfit, s.totalOperations)
    ensures IsFirstBest(ops, s.bestDay) && IsFirstWorst(ops, s.worstDay)
    ensures s.worstDay.profit <= s.bestDay.profit
  {
    SignsPartition(ops);
    var total := SumProfit(ops);
    var best := BestIndex(ops);
    var worst := WorstIndex(ops);
    Summary(|ops|, CountSign(ops, 1), CountSign(ops, -1), total,
            Percent(total, capital), Mean(total, |ops|),
            ProfitOf(ops[best]), ProfitOf(ops[worst]))
  }

  /** The pure part of calculateMonthlySummary. */
  function CalculateMonthlySummary(days: seq<TradeDay>, capital: real): (r: SummaryUpdate)
    ensures r.persist <==> exists j | 0 <= j < |days| :: IsOperated(days[j])
    ensures !r.persist ==> r.summary == EmptySummary
    ensures r.summary.totalOperations == |Operated(days)| <= |days|
    ensures r.summary.profitDays + r.summary.lossDays <= r.summary.totalOperations
    ensures r.summary.profitDays == CountSign(Operated(days), 1)
    ensures r.summary.lossDays == CountSign(Operated(days), -1)
    ensures r.summary.totalProfit == SumProfit(Operated(days))
    ensures PercentOf(r.summary.profitPercent, r.summary.totalProfit, capital)
    ensures MeanOf(r.summary.averageDailyProfit, r.summary.totalProfit, r.summary.totalOperations)
    ensures r.persist ==> IsFirstBest(Operated(days), r.summary.bestDay)
    ensures r.persist ==> IsFirstWorst(Operated(days), r.summary.worstDay)
    ensures r.summary.worstDay.profit <= r.summary.bestDay.profit
  {
    var ops := Operated(days);
    if |ops| == 0 then
      assert forall j | 0 <= j < |days| :: days[j] in days;
      SummaryUpdate(EmptySummary, false)
    else
      assert ops[0] in days;
      SummaryUpdate(SummaryOf(ops, capital), true)
  }

  /** The sentinel the scan starts from: no day seen yet, standing for -infinity / +infinity. */
  datatype Candidate = Unbounded | Found(dp: DayProfit)

  /** `days.filter(day => day.initial && day.final)` as one pass that keeps the operated days in order. */
  method ScanOperated(days: seq<TradeDay>) returns (ops: seq<TradeDay>)
    ensures ops == Operated(days)
  {
    ops := [];
    var i := 0;
    while i < |days|
      invariant 0 <= i <= |days|
      invariant ops == Operated(days[..i])
    {
      assert days[..i + 1][..i] == days[..i];
      if days[i].initial.Filled? && days[i].final.Filled? {
        ops := ops + [days[i]];
      }
      i := i + 1;
    }
    assert days[..i] == days;
  }

  /**
    `ops.filter(day => day.profitAmount > 0).length` when `gains` holds, and the
    same with `< 0` otherwise: the profit-day and loss-day counts.
   */
  method ScanCount(ops: seq<TradeDay>, gains: bool) returns (n: nat)
    ensures n == CountSign(ops, if gains then 1 else -1)
  {
    n := 0;
    var i := 0;
    while i < |ops|
      invariant 0 <= i <= |ops|
      invariant n == CountSign(ops[..i], if gains then 1 else -1)
    {
      assert ops[..i + 1][..i] == ops[..i];
      var p := ops[i].profitAmount;
      if (gains && p > 0.0) || (!gains && p < 0.0) {
        n := n + 1;
      }
      i := i + 1;
    }
    assert ops[..i] == ops;
  }

  /** `totalProfit += day.profitAmount` over the operated days. */
  method ScanTotal(ops: seq<TradeDay>) returns (total: real)
    ensures total == SumProfit(ops)
  {
    total := 0.0;
    var i := 0;
    while i < |ops|
      invariant 0 <= i <= |ops|
      invariant total == SumProfit(ops[..i])
    {
      assert ops[..i + 1][..i] == ops[..i];
      total := total + ops[i].profitAmount;
      i := i + 1;
    }
    assert ops[..i] == ops;
  }

  /** One more day seen by the scan: it takes over exactly when strictly better (worse). */
  lemma ExtremesOfLongerPrefix(ops: seq<TradeDay>, i: nat)
    requires i < |ops|
    ensures i == 0 ==> BestIndex(ops[..1]) == 0 && WorstIndex(ops[..1]) == 0
    ensures i > 0 ==>
      var b := BestIndex(ops[..i]);
      BestIndex(ops[..i + 1]) == if ops[i].profitAmount > ops[b].profitAmount then i else b
    ensures i > 0 ==>
      var w := WorstIndex(ops[..i]);
      WorstIndex(ops[..i + 1]) == if ops[i].profitAmount < ops[w].profitAmount then i else w
  {
    assert ops[..i + 1][..i] == ops[..i];
  }

  /**
    The best/worst pass: both candidates start at the infinite sentinels and are
    replaced only on a strictly larger (smaller) profit, so the first day
    achieving the extreme wins.
   */
  method ScanExtremes(ops: seq<TradeDay>) returns (best: Candidate, worst: Candidate)
    ensures |ops| == 0 ==> best == Unbounded && worst == Unbounded
    ensures |ops| > 0 ==> best == Found(ProfitOf(ops[BestIndex(ops)]))
    ensures |ops| > 0 ==> worst == Found(ProfitOf(ops[WorstIndex(ops)]))
  {
    best := Unbounded;
    worst := Unbounded;
    var i := 0;
    while i < |ops|
      invariant 0 <= i <= |ops|
      invariant i == 0 ==> best == Unbounded && worst == Unbounded
      invariant i > 0 ==> best == Found(ProfitOf(ops[BestIndex(ops[..i])]))
      invariant i > 0 ==> worst == Found(ProfitOf(ops[WorstIndex(ops[..i])]))
    {
      ExtremesOfLongerPrefix(ops, i);
      if best.Unbounded? || ops[i].profitAmount > best.dp.profit {
        best := Found(ProfitOf(ops[i]));
      }
      if worst.Unbounded? || ops[i].profitAmount < worst.dp.profit {
        worst := Found(ProfitOf(ops[i]));
      }
      i := i + 1;
    }
    assert ops[..i] == ops;
  }

  /**
    calculateMonthlySummary as the page runs it: the filter pass, the two
    counting passes, one pass for the total, one pass for best and worst, and the fallback to {day: 0, profit: 0}
    for a sentinel left untouched.
   */
  method SummarizeMonth(days: seq<TradeDay>, capital: real) returns (r: SummaryUpdate)
    ensures r == CalculateMonthlySummary(days, capital)
  {
    var ops := ScanOperated(days);
    if |ops| == 0 {
      return SummaryUpdate(EmptySummary, false);
    }
    var profitDays := ScanCount(ops, true);
    var lossDays := ScanCount(ops, false);
    var total := ScanTotal(ops);
    var best, worst := ScanExtremes(ops);
    var bestDay := if best.Unbounded? then DayProfit(0, 0.0) else best.dp;
    var worstDay := if worst.Unbounded? then DayProfit(0, 0.0) else worst.dp;
    var n := |ops|;
    var summary := Summary(
      n, profitDays, lossDays, total,
      Percent(total, capital), Mean(total, n),
      bestDay, worstDay);
    assert summary == SummaryOf(ops, capital);
    r := SummaryUpdate(summary, true);
  }

  // ---------------------------------------------------------------------------
  // Properties relating the summary to the rest of the dashboard
  // ---------------------------------------------------------------------------

  /** The summary of a freshly initialised month is the all-zero record, and is not persisted. */
  lemma PlaceholderMonthSummary(days: seq<TradeDay>, year: int, month: int, capital: real)
    requires 1 <= month <= 12
    requires IsPlaceholderMonth(days, year, month, capital)
    ensures CalculateMonthlySummary(days, capital) == SummaryUpdate(EmptySummary, false)
  {
  }

  /** Unoperated entries that carry no profit make the whole-month total equal the summary total. */
  lemma {:induction false} TotalsMatchSummary(days: seq<TradeDay>)
    requires forall j | 0 <= j < |days| :: !IsOperated(days[j]) ==> days[j].profitAmount == 0.0
    ensures SumProfit(days) == SumProfit(Operated(days))
    decreases |days|
  {
    if |days| > 0 {
      var n := |days| - 1;
      var last := days[n];
      TotalsMatchSummary(days[..n]);
      SumProfitAppend(Operated(days[..n]), if IsOperated(last) then [last] else []);
      assert [last][..0] == [];
    }
  }

  /**
    The whole-month total and the summary total can disagree: after clearing
    a value the day keeps its stale profit, which calculateTotals still adds.
   */
  lemma StaleProfitSplitsTotals()
    ensures var before := [TradeDay(1, "01/01/2024", 1, 100.0, Filled(100.0), Filled(110.0), 10.0, 10.0)];
      var after := UpdateTradeDay(before, 1, "final", Empty);
      SumProfit(after) == 10.0 && CalculateMonthlySummary(after, 100.0).summary.totalProfit == 0.0
  {
    var before := [TradeDay(1, "01/01/2024", 1, 100.0, Filled(100.0), Filled(110.0), 10.0, 10.0)];
    var after := UpdateTradeDay(before, 1, "final", Empty);
    assert after == [TradeDay(1, "01/01/2024", 1, 100.0, Filled(100.0), Empty, 10.0, 10.0)];
    assert after[..0] == [];
    assert Operated(after) == [];
  }

  /** Day 1 gains 10 and day 2 loses 10 on a capital of 100. */
  lemma TwoDayExample()
    ensures var days := [
        TradeDay(1, "01/03/2024", 1, 100.0, Filled(100.0), Filled(110.0), 10.0, 10.0),
        TradeDay(2, "02/03/2024", 2, 100.0, Filled(100.0), Filled(90.0), -10.0, -10.0)];
      CalculateMonthlySummary(days, 100.0) == SummaryUpdate(
        Summary(2, 1, 1, 0.0, 0.0, 0.0, DayProfit(1, 10.0), DayProfit(2, -10.0)), true)
  {
    var d1 := TradeDay(1, "01/03/2024", 1, 100.0, Filled(100.0), Filled(110.0), 10.0, 10.0);
    var d2 := TradeDay(2, "02/03/2024", 2, 100.0, Filled(100.0), Filled(90.0), -10.0, -10.0);
    var days := [d1, d2];
    assert days[..1] == [d1] && [d1][..0] == [];
    assert Operated([d1]) == [d1];
    assert Operated(days) == days;
    assert SumProfit([d1]) == 10.0;
    assert SumProfit(days) == 0.0;
    assert CountSign([d1], 1) == 1 && CountSign([d1], -1) == 0;
    assert CountSign(days, 1) == 1 && CountSign(days, -1) == 1;
    assert BestIndex(days) == 0 && WorstIndex(days) == 1;
    assert SummaryOf(days, 100.0) == Summary(2, 1, 1, 0.0, 0.0, 0.0, DayProfit(1, 10.0), DayProfit(2, -10.0));
  }
}

=== FILE: phone_mask.dfy ===
/**
  The Brazilian phone-number mask applied while the user types, in both the
  profile and the registration form: keep only the ASCII digits, and for at
  most eleven of them lay them out as `(XX) XXXXX-XXXX`, inserting the hyphen
  at position 10 once the masked text is longer than 10 characters.
 */
module PhoneMask {
  import opened DecimalText

  /** `s.replace(/\D/g, "")`: the digit characters of `s`, in order. */
  function Digits(s: string): (d: string)
    ensures AllDigits(d) && |d| <= |s|
  {
    if |s| == 0 then "" else (if IsDigit(s[0]) then [s[0]] else "") + Digits(s[1..])
  }

  /** A single character survives exactly when it is a digit. */
  lemma DigitsOfChar(c: char)
    ensures Digits([c]) == if IsDigit(c) then [c] else ""
  {
    assert [c][1..] == "";
  }

  /** Every digit of `s` is kept, as often as it occurs, and nothing else is. */
  lemma {:induction false} DigitCounts(s: string)
    ensures forall c :: multiset(Digits(s))[c] == if IsDigit(c) then multiset(s)[c] else 0
    decreases |s|
  {
    if |s| > 0 {
      assert s == [s[0]] + s[1..];
      DigitCounts(s[1..]);
    }
  }

  lemma {:induction false} DigitsAppend(a: string, b: string)
    ensures Digits(a + b) == Digits(a) + Digits(b)
    decreases |a|
  {
    if |a| == 0 {
      assert a + b == b;
    } else {
      assert (a + b)[0] == a[0];
      assert (a + b)[1..] == a[1..] + b;
      assert Digits(a + b) == (if IsDigit(a[0]) then [a[0]] else "") + Digits(a[1..] + b);
      DigitsAppend(a[1..], b);
    }
  }

  /** A string made only of digits is its own digit string. */
  lemma {:induction false} DigitsOfDigitString(s: string)
    requires AllDigits(s)
    ensures Digits(s) == s
    decreases |s|
  {
    if |s| > 0 {
      DigitsOfDigitString(s[1..]);
    }
  }

  /** The intended layout of a digit string `d`, stated from its length. */
  function MaskShape(d: string): string {
    if |d| <= 2 || |d| > 11 then d
    else if |d| < 8 then "(" + d[..2] + ") " + d[2..]
    else "(" + d[..2] + ") " + d[2..7] + "-" + d[7..]
  }

  /** handlePhoneChange: the value the input is set to for the text typed so far. */
  function FormatPhone(input: string): (r: string)
    ensures r == MaskShape(Digits(input))
    ensures Digits(r) == Digits(input)
    ensures var n := |Digits(input)|;
      |r| == n + (if 3 <= n <= 11 then 3 else 0) + (if 8 <= n <= 11 then 1 else 0)
    ensures var n := |Digits(input)|;
      (8 <= n <= 11 ==> r[10] == '-') && ('-' in r <==> 8 <= n <= 11)
  {
    var v := Digits(input);
    MaskKeepsDigits(v);
    if |v| <= 11 then
      var bracketed := if |v| > 2 then "(" + v[..2] + ") " + v[2..] else v;
      assert |bracketed| == if |v| > 2 then |v| + 3 else |v|;
      if |bracketed| > 10 then
        assert bracketed[..10] == "(" + v[..2] + ") " + v[2..7];
        assert bracketed[10..] == v[7..];
        bracketed[..10] + "-" + bracketed[10..]
      else
        bracketed
    else
      v
  }

  /** The `(XX) ` prefix carries exactly the first two digits. */
  lemma PrefixDigits(d: string)
    requires AllDigits(d) && |d| >= 2
    ensures Digits("(" + d[..2] + ") ") == d[..2]
  {
    DigitsOfDigitString(d[..2]);
    DigitsAppend("(", d[..2]);
    DigitsAppend("(" + d[..2], ") ");
    assert Digits(") ") == "" by {
      assert ") "[1..] == " ";
      assert " "[1..] == "";
    }
  }

  lemma ShortMaskDigits(d: string)
    requires AllDigits(d) && 3 <= |d| < 8
    ensures Digits("(" + d[..2] + ") " + d[2..]) == d
  {
    PrefixDigits(d);
    DigitsOfDigitString(d[2..]);
    DigitsAppend("(" + d[..2] + ") ", d[2..]);
    assert d[..2] + d[2..] == d;
  }

  lemma LongMaskDigits(d: string)
    requires AllDigits(d) && 8 <= |d| <= 11
    ensures Digits("(" + d[..2] + ") " + d[2..7] + "-" + d[7..]) == d
  {
    var prefix := "(" + d[..2] + ") ";
    PrefixDigits(d);
    DigitsOfDigitString(d[2..7]);
    DigitsOfDigitString(d[7..]);
    DigitsAppend(prefix, d[2..7]);
    DigitsAppend(prefix + d[2..7], "-");
    DigitsAppend(prefix + d[2..7] + "-", d[7..]);
    assert Digits("-") == "" by {
      assert "-"[1..] == "";
    }
    assert d[..2] + d[2..7] == d[..7];
    assert d[..7] + d[7..] == d;
  }

  /** The layout adds only punctuation, so its digit string is the input's. */
  lemma MaskKeepsDigits(d: string)
    requires AllDigits(d)
    ensures Digits(MaskShape(d)) == d
    ensures var r := MaskShape(d);
      (8 <= |d| <= 11 ==> r[10] == '-') && ('-' in r <==> 8 <= |d| <= 11)
  {
    var r := MaskShape(d);
    if 3 <= |d| < 8 {
      ShortMaskDigits(d);
      assert '-' !in d[..2] && '-' !in d[2..];
    } else if 8 <= |d| <= 11 {
      LongMaskDigits(d);
      assert r[10] == '-';
    } else {
      DigitsOfDigitString(d);
    }
  }

  /** Masking what the mask produced changes nothing. */
  lemma FormatIdempotent(input: string)
    ensures FormatPhone(FormatPhone(input)) == FormatPhone(input)
  {
  }

  /** Two inputs with the same digits are masked alike. */
  lemma FormatDependsOnlyOnDigits(a: string, b: string)
    requires Digits(a) == Digits(b)
    ensures FormatPhone(a) == FormatPhone(b)
  {
  }
}

=== FILE: profile_page.dfy ===
/**
  The profile page's synchronous handlers (app/profile/page.tsx): the phone
  mask on every keystroke, and the start of the password update up to its first
  request to the authentication backend.
 */
module ProfilePage {
  import PhoneMask
  import opened FormGuard

  /** handlePhoneChange: the phone field is set to the masked text. */
  function HandlePhoneChange(typed: string): (phone: string)
    ensures PhoneMask.Digits(phone) == PhoneMask.Digits(typed)
    ensures phone == PhoneMask.MaskShape(PhoneMask.Digits(typed))
  {
    PhoneMask.FormatPhone(typed)
  }

  /** What handlePasswordUpdate does before it first awaits the backend. */
  datatype Effect =
    | ClearPasswordError
    | ClearPasswordSuccess
    | SetPasswordError(message: string)
    | SetLoading
    | VerifyCurrentPassword(email: string, password: string)

  predicate IsBackendCall(e: Effect) {
    e.VerifyCurrentPassword?
  }

  /**
    handlePasswordUpdate up to its first request: on a mismatch the error is set
    and the handler returns; otherwise it signs in again with the current
    password (the user's email, or "" without one).
   */
  function HandlePasswordUpdate(email: string, currentPassword: string, newPassword: string, confirmPassword: string)
    : (effects: seq<Effect>)
    ensures |effects| > 0
    ensures (exists i | 0 <= i < |effects| :: IsBackendCall(effects[i])) <==> newPassword == confirmPassword
    ensures newPassword != confirmPassword ==> effects[|effects| - 1] == SetPasswordError(PasswordMismatch)
    ensures newPassword == confirmPassword ==>
      effects[|effects| - 1] == VerifyCurrentPassword(email, currentPassword)
      && forall i | 0 <= i < |effects| :: !effects[i].SetPasswordError?
  {
    var reset := [ClearPasswordError, ClearPasswordSuccess];
    match ConfirmPasswords(newPassword, confirmPassword)
    case Rejected(message) => reset + [SetPasswordError(message)]
    case Accepted =>
      var effects := reset + [SetLoading, VerifyCurrentPassword(email, currentPassword)];
      assert IsBackendCall(effects[3]);
      effects
  }
}

=== FILE: register_page.dfy ===
/**
  The registration page's synchronous handlers (app/register/page.tsx): the
  same phone mask as the profile page, and the start of the sign-up submission
  up to its request to the registration endpoint.
 */
module RegisterPage {
  import PhoneMask
  import ProfilePage
  import opened FormGuard

  /** handlePhoneChange: the registration form masks the phone exactly as the profile form does. */
  function HandlePhoneChange(typed: string): (phone: string)
    ensures phone == ProfilePage.HandlePhoneChange(typed)
    ensures PhoneMask.Digits(typed) == PhoneMask.Digits(phone)
    ensures |PhoneMask.Digits(typed)| > 11 ==> phone == PhoneMask.Digits(typed)
  {
    PhoneMask.FormatPhone(typed)
  }

  /** The form fields sent with a registration. */
  datatype Registration = Registration(name: string, phone: string, email: string, password: string)

  /** What handleSubmit does before it first awaits the network. */
  datatype Effect =
    | ClearError
    | SetError(message: string)
    | SetLoading
    | PostRegister(form: Registration)

  predicate IsBackendCall(e: Effect) {
    e.PostRegister?
  }

  /**
    handleSubmit up to its first request: on a mismatch the error is set and
    the handler returns; otherwise the form is posted with action "register".
   */
  function HandleSubmit(form: Registration, confirmPassword: string): (effects: seq<Effect>)
    ensures |effects| > 0
    ensures (exists i | 0 <= i < |effects| :: IsBackendCall(effects[i])) <==> form.password == confirmPassword
    ensures form.password != confirmPassword ==> effects[|effects| - 1] == SetError(PasswordMismatch)
    ensures form.password == confirmPassword ==>
      effects[|effects| - 1] == PostRegister(form)
      && forall i | 0 <= i < |effects| :: !effects[i].SetError?
  {
    match ConfirmPasswords(form.password, confirmPassword)
    case Rejected(message) => [ClearError, SetError(message)]
    case Accepted =>
      var effects := [ClearError, SetLoading, PostRegister(form)];
      assert IsBackendCall(effects[2]);
      effects
  }
}

=== FILE: trade_ledger.dfy ===
/**
  The dashboard's month of trade days (app/dashboard/page.tsx): building the
  placeholder month, editing one day's opening or closing value, and the
  whole-month totals.  Money is a mathematical `real`.  A text input field is
  an `Entry`: `Empty` for the empty string, `Filled(amount)` otherwise, where
  `amount` is the number the page reads from the text (0 when it is not a
  number).
 */
module TradeLedger {
  import opened Calendar
  import opened DecimalText

  datatype Entry = Empty | Filled(amount: real)

  datatype TradeDay = TradeDay(
    id: int,
    date: string,
    day: int,
    capital: real,
    initial: Entry,
    final: Entry,
    profitPercent: real,
    profitAmount: real)

  /** A day counts as operated when both its opening and closing values are filled in. */
  predicate IsOperated(d: TradeDay) {
    d.initial.Filled? && d.final.Filled?
  }

  /**
    `p` is `part` as a percentage of `whole`, with the page's convention that a
    percentage of a zero base is 0 rather than a division error.
   */
  predicate PercentOf(p: real, part: real, whole: real) {
    if whole == 0.0 then p == 0.0 else p * whole == 100.0 * part
  }

  /** `part / whole * 100`, or 0 when `whole` is 0: the page's percentage rule in all three places it computes one. */
  function Percent(part: real, whole: real): (p: real)
    ensures PercentOf(p, part, whole)
  {
    if whole != 0.0 then part / whole * 100.0 else 0.0
  }

  /** Nothing as a percentage of anything is 0. */
  lemma PercentOfNothing(p: real, whole: real)
    requires PercentOf(p, 0.0, whole)
    ensures p == 0.0
  {
    if whole != 0.0 {
      assert p * whole == 0.0;
    }
  }

  /** Profit fields of an operated day agree with its opening and closing values. */
  predicate ProfitConsistent(d: TradeDay)
    requires IsOperated(d)
  {
    var opening := d.initial.amount;
    && d.profitAmount + opening == d.final.amount
    && PercentOf(d.profitPercent, d.profitAmount, opening)
  }

  predicate WellPriced(d: TradeDay) {
    IsOperated(d) ==> ProfitConsistent(d)
  }

  // ---------------------------------------------------------------------------
  // Month initialisation
  // ---------------------------------------------------------------------------

  /** `DD/MM/YYYY`: day and month zero-padded to two digits, the year as written by `${year}`. */
  function FormatDate(day: nat, month: nat, year: int): (s: string)
    requires day < 100 && month < 100
    ensures |s| >= 7 && s[2] == '/' && s[5] == '/'
    ensures AllDigits(s[..2]) && ParseDigits(s[..2]) == day
    ensures AllDigits(s[3..5]) && ParseDigits(s[3..5]) == month
    ensures s[6..] == IntToString(year)
    ensures IsIntNumeral(s[6..]) && ParseInt(s[6..]) == year
  {
    var dd, mm, yyyy := Pad2(day), Pad2(month), IntToString(year);
    var s := dd + "/" + mm + "/" + yyyy;
    assert s[..2] == dd by {
      assert s[0] == dd[0] && s[1] == dd[1];
    }
    assert s[3..5] == mm by {
      assert s[3] == mm[0] && s[4] == mm[1];
    }
    assert s[6..] == yyyy;
    IntToStringRoundTrip(year);
    s
  }

  /** The untouched entry for day `n` of a month. */
  predicate IsPlaceholder(d: TradeDay, n: nat, year: int, month: int, capital: real)
    requires 1 <= month <= 12
  {
    && d.id == n && d.day == n
    && n < 100
    && d.date == FormatDate(n, month, year)
    && d.capital == capital
    && d.initial == Empty && d.final == Empty
    && d.profitPercent == 0.0 && d.profitAmount == 0.0
  }

  predicate IsPlaceholderMonth(days: seq<TradeDay>, year: int, month: int, capital: real)
    requires 1 <= month <= 12
  {
    && |days| == EntryCount(year, month)
    && forall i | 0 <= i < |days| :: IsPlaceholder(days[i], i + 1, year, month, capital)
  }

  /** initializeTradeDays: one placeholder per day of the month, day numbers 1..N in order. */
  method InitializeTradeDays(year: int, month: int, capital: real) returns (days: seq<TradeDay>)
    requires 1 <= month <= 12
    ensures IsPlaceholderMonth(days, year, month, capital)
  {
    var n := EntryCount(year, month);
    assert n <= 31;
    days := [];
    var i := 1;
    while i <= n
      invariant 1 <= i <= n + 1
      invariant |days| == i - 1
      invariant forall j | 0 <= j < |days| :: IsPlaceholder(days[j], j + 1, year, month, capital)
    {
      var entry := TradeDay(i, FormatDate(i, month, year), i, capital, Empty, Empty, 0.0, 0.0);
      assert IsPlaceholder(entry, i, year, month, capital);
      assert (days + [entry])[..|days|] == days;
      days := days + [entry];
      i := i + 1;
    }
  }

  // ---------------------------------------------------------------------------
  // Editing one day
  // ---------------------------------------------------------------------------

  /** `findIndex(day => day.id === id)`: the first matching position, or -1. */
  function FindDayIndex(days: seq<TradeDay>, id: int): (k: int)
    ensures -1 <= k < |days|
    ensures k == -1 <==> forall j | 0 <= j < |days| :: days[j].id != id
    ensures k >= 0 ==> days[k].id == id && forall j | 0 <= j < k :: days[j].id != id
  {
    if |days| == 0 then -1
    else if days[0].id == id then 0
    else
      var k := FindDayIndex(days[1..], id);
      if k == -1 then -1 else k + 1
  }

  /** Recomputes the profit fields when both values are present; otherwise leaves the day alone. */
  function Reprice(d: TradeDay): (r: TradeDay)
    ensures WellPriced(r)
    ensures IsOperated(r) == IsOperated(d)
    ensures !IsOperated(d) ==> r == d
    ensures r.(profitAmount := d.profitAmount, profitPercent := d.profitPercent) == d
  {
    if IsOperated(d) then
      var opening := d.initial.amount;
      var amount := d.final.amount - opening;
      d.(profitAmount := amount, profitPercent := Percent(amount, opening))
    else
      d
  }

  /** The day after writing `value` into `field`, as the edit handler leaves it. */
  function EditDay(d: TradeDay, field: string, value: Entry): TradeDay {
    if field == "initial" then Reprice(d.(initial := value))
    else if field == "final" then Reprice(d.(final := value))
    else d
  }

  /** What an edit of `field` may change: that field, and the profit fields. */
  predicate EditedAsRequested(before: TradeDay, after: TradeDay, field: string, value: Entry) {
    && after.id == before.id && after.date == before.date
    && after.day == before.day && after.capital == before.capital
    && (if field == "initial" then after.initial == value && after.final == before.final
        else if field == "final" then after.final == value && after.initial == before.initial
        else after == before)
    && (field == "initial" || field == "final" ==>
          if IsOperated(after) then ProfitConsistent(after)
          else after.profitAmount == before.profitAmount && after.profitPercent == before.profitPercent)
  }

  /** The pure part of updateTradeDay: only the first entry with a matching id changes. */
  function UpdateTradeDay(days: seq<TradeDay>, id: int, field: string, value: Entry): (r: seq<TradeDay>)
    ensures |r| == |days|
    ensures forall j | 0 <= j < |days| && j != FindDayIndex(days, id) :: r[j] == days[j]
    ensures (forall j | 0 <= j < |days| :: days[j].id != id) ==> r == days
    ensures var k := FindDayIndex(days, id);
      k >= 0 ==> EditedAsRequested(days[k], r[k], field, value)
  {
    var k := FindDayIndex(days, id);
    if k == -1 then days else days[k := EditDay(days[k], field, value)]
  }

  /** Editing keeps every operated day's profit fields in agreement with its values. */
  lemma UpdatePreservesPricing(days: seq<TradeDay>, id: int, field: string, value: Entry)
    requires forall j | 0 <= j < |days| :: WellPriced(days[j])
    ensures var r := UpdateTradeDay(days, id, field, value);
      forall j | 0 <= j < |r| :: WellPriced(r[j])
  {
  }

  /**
    Clearing a value does not reset the profit fields: the day stops being
    operated but keeps the profit of its last complete edit.
   */
  lemma ClearingKeepsStaleProfit()
    ensures var before := [TradeDay(1, "01/01/2024", 1, 100.0, Filled(100.0), Filled(110.0), 10.0, 10.0)];
      var after := UpdateTradeDay(before, 1, "final", Empty);
      !IsOperated(after[0]) && after[0].profitAmount == 10.0
  {
  }

  // ---------------------------------------------------------------------------
  // Whole-month totals
  // ---------------------------------------------------------------------------

  /** Sum of profitAmount, accumulated left to right as forEach does. */
  function SumProfit(days: seq<TradeDay>): real {
    if |days| == 0 then 0.0 else SumProfit(days[..|days| - 1]) + days[|days| - 1].profitAmount
  }

  lemma {:induction false} SumProfitAppend(a: seq<TradeDay>, b: seq<TradeDay>)
    ensures SumProfit(a + b) == SumProfit(a) + SumProfit(b)
    decreases |b|
  {
    if |b| == 0 {
      assert a + b == a;
    } else {
      assert (a + b)[..|a + b| - 1] == a + b[..|b| - 1];
      SumProfitAppend(a, b[..|b| - 1]);
    }
  }

  /** Taking one entry out lowers the total by exactly its profit. */
  lemma SumProfitWithout(front: seq<TradeDay>, x: TradeDay, back: seq<TradeDay>)
    ensures SumProfit(front + [x] + back) == SumProfit(front + back) + x.profitAmount
  {
    SumProfitAppend(front + [x], back);
    SumProfitAppend(front, back);
    assert SumProfit(front + [x]) == SumProfit(front) + x.profitAmount by {
      assert (front + [x])[..|front|] == front;
    }
  }

  /** The total does not depend on the order of the entries. */
  lemma {:induction false} SumProfitPermutation(a: seq<TradeDay>, b: seq<TradeDay>)
    requires multiset(a) == multiset(b)
    ensures SumProfit(a) == SumProfit(b)
    decreases |a|
  {
    if |a| > 0 {
      var n := |a| - 1;
      var x := a[n];
      assert a == a[..n] + [x];
      assert x in multiset(b);
      var i :| 0 <= i < |b| && b[i] == x;
      var rest := b[..i] + b[i + 1..];
      assert multiset(rest) == multiset(b) - multiset{x} by {
        assert b == b[..i] + [x] + b[i + 1..];
        assert multiset(b) == multiset(b[..i]) + multiset([x]) + multiset(b[i + 1..]);
      }
      assert multiset(a[..n]) == multiset(a) - multiset{x} by {
        assert multiset(a) == multiset(a[..n]) + multiset{x};
      }
      SumProfitPermutation(a[..n], rest);
      assert b == b[..i] + [x] + b[i + 1..];
      SumProfitWithout(b[..i], x, b[i + 1..]);
    }
  }

  lemma {:induction false} SumOfZeros(days: seq<TradeDay>)
    requires forall j | 0 <= j < |days| :: days[j].profitAmount == 0.0
    ensures SumProfit(days) == 0.0
    decreases |days|
  {
    if |days| > 0 {
      SumOfZeros(days[..|days| - 1]);
    }
  }

  datatype Totals = Totals(totalProfit: real, profitPercent: real, accumulatedCapital: real)

  /** calculateTotals: every entry's profitAmount counts, operated or not. */
  method CalculateTotals(days: seq<TradeDay>, capital: real) returns (t: Totals)
    ensures t.totalProfit == SumProfit(days)
    ensures t.accumulatedCapital == capital + t.totalProfit
    ensures PercentOf(t.profitPercent, t.totalProfit, capital)
  {
    var total := 0.0;
    var i := 0;
    while i < |days|
      invariant 0 <= i <= |days|
      invariant total == SumProfit(days[..i])
    {
      assert days[..i + 1][..i] == days[..i];
      total := total + days[i].profitAmount;
      i := i + 1;
    }
    assert days[..i] == days;
    t := Totals(total, Percent(total, capital), capital + total);
  }

  /** A freshly initialised month, or any run of its placeholder entries, has nothing to add up. */
  lemma {:induction false} PlaceholderMonthHasNoProfit(days: seq<TradeDay>, year: int, month: int, capital: real)
    requires 1 <= month <= 12
    requires forall j | 0 <= j < |days| :: IsPlaceholder(days[j], j + 1, year, month, capital)
    ensures SumProfit(days) == 0.0
    ensures forall j | 0 <= j < |days| :: !IsOperated(days[j])
  {
    SumOfZeros(days);
  }
}
